=== FILE: README.md ===
# react-sidepanes: pane-layout state logic in Dafny

`@didmar/react-sidepanes` lays out two collapsible side panes, left and
right, around a central content region. This project models the state logic
behind that layout and proves properties about it.

Each pane has an open state, a width and a closed style. The open state is
`closed`, `temporary` (revealed by hovering) or `pinned`. The closed style is
`hidden` or `compact`. The model covers:

- **`Pane`**: the shared vocabulary. It holds the constants
  (`DEFAULT_SIDE_PANE_WIDTH = 320`, `MIN_SIDE_PANE_WIDTH = 200`,
  `COMPACT_SIDE_PANE_WIDTH = 40`), width clamping, and the values the
  rendering layer reads off a pane: whether it is expanded, temporary or
  rendered at all, and its drawn width (`getSidepaneWidthInPx`).
- **`SpaceArbiter`**: `computePanesToClose`, the pure decision about which
  panes must close when space runs out. It also holds the unit tests' truth
  table as an independent row-by-row reference, and a proof that the two
  agree.
- **`PaneStore`**: the pair of pane states. Initial states come from
  per-side configuration merged over the built-in defaults. The module has
  the open, close and set-width operations, the `enoughSpace` test, the
  viewport recompute, and the central region's derived width.
- **`Resize`**: drag-to-resize. The width is captured when the drag starts;
  each pointer move sets a new width, clamped to the accepted range.
- **`HoverIntent`**: one edge's hover sensor as an event-driven state
  machine over a virtual integer clock. It covers the open delay, the
  100 ms leave debounce and the 500 ms reopen cooldown. Clicking the toggle
  bypasses all of it.
- **`Coordinator`**: everything composed into one layout state. It proves
  that every operation keeps widths in range and keeps each sensor's timer
  in step with its pane.

The repository's tests do not state the values of some constants. These are
the largest side-pane width, the central region's minimum and maximum width,
and the hover open delay. They stay symbolic in a `Limits` record.
`Limits.Valid()` states the assumptions every member makes about them:

- `200 < 320 < max`
- `0 <= centralMin <= centralMax`
- `0 < openDelay <= 600`

The bound of 600 ms is how long the browser scenarios wait after moving onto
a sensor. One lemma, `PaneStore.WidenedPinnedPaneIsDrawnAtNewWidth`, also
assumes `max >= 330`, as the unit test it follows does when it widens the
default pane by 10 px.

The toggle of a closed pane sits on the pane's edge. The pointer resting on
it is reported as entering the edge's trigger zone, and moving off it as
leaving that zone. The pane events (pointer over or off the pane) concern
an expanded pane only.

Design choices the tests leave open:

- **`enoughSpace`** holds when `viewport >= widthIfExpanded(left) +
  widthIfExpanded(right) + centralMin`. A closed pane claims nothing here,
  even when it is drawn as a compact bar. This agrees with both data points
  in the unit tests:
  - `2*320 + centralMax` is enough.
  - `centralMin` with both panes pinned is not.

  The central region's width, by contrast, subtracts a compact bar's 40 px.
  So while the panes fit, the drawn regions can exceed the viewport by 40 px
  per closed compact pane, and by nothing when there is no compact bar
  (`FittingPanesLeaveCentralRoom`, `CompactBarCanOverflowViewport`).
- **A temporary pane counts as open** in arbitration, because it is drawn at
  its full width. Hover transitions are never arbitrated. Only pin and close
  transitions are: through the open/close operations, or a toggle click.
- **When arbitration or a recompute closes a pane**, any timer that pane had
  pending is cancelled. `lastClosedAt` is recorded only when a revealed pane
  closes through its leave debounce.
- **Configured widths are clamped** like every other width.
- **A hover arriving during the cooldown** is deferred to the end of the
  cooldown. It then starts the open delay, unless the pointer has left the
  trigger zone in the meantime.

## Model

| member | source | states |
|---|---|---|
| `Pane.ClampWidth` | packages/react-sidepanes/tests/e2e/sidepanes.steps.ts:301-308 | the stored width is always within [200, max]; it is the in-range width nearest to the request; an in-range request is kept exactly |
| `Pane.SidepaneWidthInPx` | packages/react-sidepanes/tests/e2e/sidepanes.steps.ts:410-430 | an expanded pane is drawn at its stored width; a closed compact pane is drawn as a 40 px bar; a closed hidden pane takes no width |
| `Pane.RenderedWidthDistinguishesStates` | packages/react-sidepanes/tests/e2e/sidepanes.steps.ts:410-430 | for an in-range pane, the drawn width alone tells apart absent (0), compact bar (40) and expanded (at least 200) |
| `SpaceArbiter.ComputePanesToClose` | packages/react-sidepanes/tests/unit/SidepanesContext.test.tsx:209-348 | with enough space nothing closes; only open panes are closed; the pane that changed is never closed; after a change, the other pane closes exactly when both are open (a pane that just closed triggers nothing); with no change, exactly the open panes close |
| `SpaceArbiter.AgreesWithDecisionTable` | packages/react-sidepanes/tests/unit/SidepanesContext.test.tsx:209-348 | the tests' truth table covers every input, and on every row matching an input the arbitration gives that row's outcome |
| `SpaceArbiter.ArbitrationIsSymmetric` | packages/react-sidepanes/tests/unit/SidepanesContext.test.tsx:242-306 | swapping left and right in the inputs swaps the two closing decisions |
| `PaneStore.BuiltInDefault` | packages/react-sidepanes/tests/unit/SidepanesContext.test.tsx:70-86 | left defaults to pinned and compact; right defaults to closed and hidden; both default to 320 px |
| `PaneStore.MergePaneConfig` | packages/react-sidepanes/tests/unit/SidepanesContext.test.tsx:28-44 | each configured field (open state, closed style) overrides the default and each missing one keeps it; the width is 320 when absent, and otherwise the in-range width nearest to the configured one, so an in-range configured width is kept exactly |
| `PaneStore.Init` | packages/react-sidepanes/tests/unit/SidepanesContext.test.tsx:166-206 | each pane is determined by its own side's configuration alone, and both widths are in range |
| `PaneStore.DefaultInitialization` | packages/react-sidepanes/tests/unit/SidepanesContext.test.tsx:70-86 | with no configuration, left = {pinned, 320, compact} and right = {closed, 320, hidden} |
| `PaneStore.ClosedStyleOverrideIsPerSide` | packages/react-sidepanes/tests/unit/SidepanesContext.test.tsx:166-206 | configuring one side's closed style sets that style and leaves the other pane exactly at its default |
| `PaneStore.EnoughSpace` | packages/react-sidepanes/tests/unit/SidepanesContext.test.tsx:129-137 | the viewport holds the expanded panes at their widths next to the central region at its minimum; closed panes, compact bars included, claim nothing |
| `PaneStore.EnoughSpaceIsMonotone` | packages/react-sidepanes/tests/unit/SidepanesContext.test.tsx:129-137 | once the panes fit, they still fit in any wider viewport and after either pane closes |
| `PaneStore.WideViewportHasEnoughSpace` | packages/react-sidepanes/tests/unit/SidepanesContext.test.tsx:58-61 | a viewport of 2*320 + central maximum has enough space for two 320 px panes, whatever their states |
| `PaneStore.CentralMinimumViewportLacksSpace` | packages/react-sidepanes/tests/unit/SidepanesContext.test.tsx:129-137 | a viewport only as wide as the central minimum lacks space whenever an in-range pane is expanded |
| `PaneStore.CentralPaneWidth` | packages/react-sidepanes/tests/unit/SidepanesContext.test.tsx:58-61 | the central width is within its bounds, and equals what the drawn side panes leave of the viewport whenever that remainder is within bounds |
| `PaneStore.FittingPanesLeaveCentralRoom` | packages/react-sidepanes/tests/unit/SidepanesContext.test.tsx:58-61 | when the panes fit, the drawn side panes plus the central width exceed the viewport by at most 40 px per closed compact pane, and not at all when neither pane is a compact bar |
| `PaneStore.CompactBarCanOverflowViewport` | packages/react-sidepanes/tests/unit/SidepanesContext.test.tsx:58-61 | a closed compact left pane next to a pinned 320 px right pane, in a viewport of 320 + central minimum, passes the space test and survives a recompute, yet the drawn regions exceed the viewport by exactly 40 px |
| `PaneStore.WideViewportFitsCentralMaximum` | packages/react-sidepanes/tests/unit/SidepanesContext.test.tsx:58-61 | in the starting viewport, two expanded 320 px panes leave the central region exactly its maximum width |
| `PaneStore.OpenPane` | packages/react-sidepanes/tests/unit/SidepanesContext.test.tsx:88-127 | the pane ends up pinned with its width and style unchanged; the other pane is closed exactly when it was expanded and the two no longer fit, and is otherwise unchanged; widths stay in range |
| `PaneStore.ClosePane` | packages/react-sidepanes/tests/unit/SidepanesContext.test.tsx:88-114 | the pane ends up closed with its width and style unchanged, and the other pane is untouched (closing never cascades) |
| `PaneStore.ClosePaneIsIdempotent` | packages/react-sidepanes/tests/unit/SidepanesContext.test.tsx:88-100 | closing a pane twice leaves the same state as closing it once |
| `PaneStore.SetPaneWidth` | packages/react-sidepanes/tests/unit/SidepanesContext.test.tsx:154-164 | the new width is in range, equals an in-range request exactly, and is the nearer bound for an out-of-range one; open state, closed style and the other pane are untouched |
| `PaneStore.WidenedPinnedPaneIsDrawnAtNewWidth` | packages/react-sidepanes/tests/unit/SidepanesContext.test.tsx:154-164 | widening the default left pane by 10 px makes the pinned pane draw at 330 px |
| `PaneStore.Recompute` | packages/react-sidepanes/tests/unit/SidepanesContext.test.tsx:116-139 | with enough space nothing changes; otherwise every pane is closed and keeps its width and style |
| `PaneStore.RecomputeIsIdempotent` | packages/react-sidepanes/tests/unit/SidepanesContext.test.tsx:129-139 | after a recompute the panes fit or none is expanded, and recomputing again at the same width changes nothing |
| `PaneStore.ShrinkClosesAPane` | packages/react-sidepanes/tests/e2e/sidepanes.steps.ts:391-404 | after a recompute at a viewport too narrow for the expanded panes, at least one pane is closed |
| `PaneStore.ShrinkToCentralMinimumClosesBoth` | packages/react-sidepanes/tests/unit/SidepanesContext.test.tsx:116-139 | opening both default panes in the wide viewport pins both; shrinking the viewport to the central minimum then closes both |
| `Resize.DragWidth` | packages/react-sidepanes/tests/e2e/sidepanes.steps.ts:263-308 | the width a drag asks for is the in-range width nearest to the captured width plus the pointer's outward travel, and exactly that sum when it is in range; from an in-range start it grows exactly when the pointer moved outward with room to grow, and shrinks exactly when it moved inward with room to shrink |
| `Resize.DragEndsAtLastMove` | packages/react-sidepanes/tests/e2e/sidepanes.steps.ts:283-286 | after any sequence of intermediate moves, the store holds what a single move to the final position gives |
| `Resize.DragGesture` | packages/react-sidepanes/tests/e2e/sidepanes.steps.ts:263-308 | however the pointer moved, the final width is the one its last position asks for; after any drag the dragged width is in range, so at least 200; the other pane, the open state and the closed style are untouched |
| `Resize.OutwardLeftDragWidensDefaultPane` | packages/react-sidepanes/tests/e2e/sidepanes.steps.ts:292-299 | dragging the left handle outward by any positive distance from 320 px leaves the left pane wider than 320 px |
| `HoverIntent.Step` | packages/react-sidepanes/tests/e2e/sidepanes.steps.ts:124-220 | the timer stays in step with the open state; a pinned pane ignores everything but its toggle; only a click pins a pane; a click pins a closed or revealed pane and closes a pinned one, cancelling timers; only a due open timer reveals a pane; only a due leave timer closes a revealed one, recording when; a closed pane stays closed during its cooldown |
| `HoverIntent.RunPreservesConsistency` | packages/react-sidepanes/tests/e2e/sidepanes.steps.ts:124-220 | no sequence of events gets a timer out of step with its pane: only a closed pane waits to open, only a revealed pane waits to close |
| `HoverIntent.CooldownKeepsPaneClosed` | packages/react-sidepanes/tests/e2e/sidepanes.steps.ts:436-464 | whatever pointer and timer events happen before the cooldown ends, short of a toggle click, a pane that closed from a hover stays closed |
| `HoverIntent.ImmediateRehoverStaysClosed` | packages/react-sidepanes/tests/e2e/sidepanes.steps.ts:436-464 | a revealed pane left at t closes at t+100 and records that time; a re-hover at t+350 checked at t+400 finds it still closed |
| `HoverIntent.HoverRevealsTemporaryPane` | packages/react-sidepanes/tests/e2e/sidepanes.steps.ts:105-113 | dwelling in the trigger zone of a closed pane outside any cooldown reveals it as temporary within 600 ms, with no timer left pending and the cooldown record kept |
| `HoverIntent.IdleClosedEdgeStaysIdle` | packages/react-sidepanes/tests/e2e/sidepanes.steps.ts:114-121 | a closed pane with no pending timer is left exactly as it is by any events that neither enter the trigger zone nor click the toggle |
| `HoverIntent.LeavingTriggerZoneCancelsReveal` | packages/react-sidepanes/tests/e2e/sidepanes.steps.ts:104-121 | entering a closed pane's trigger zone, checking the clock before the open delay passes (the pane is still closed, the reveal pending) and then leaving restores the edge exactly, so the pane stays closed through any later events short of a new entry or a click, inside a cooldown too |
| `HoverIntent.LeaveClosesAfterDebounce` | packages/react-sidepanes/tests/e2e/sidepanes.steps.ts:208-215 | leaving a revealed pane with no pending timer closes it at a check 100 ms or more later, recording the close time; a check sooner finds it still revealed with the close pending |
| `HoverIntent.DeferredHoverRevealsAfterCooldown` | packages/react-sidepanes/tests/e2e/sidepanes.steps.ts:445-458 | a hover that arrives during the cooldown and stays reveals the pane one open delay after the cooldown ends |
| `HoverIntent.ReenteringCancelsClose` | packages/react-sidepanes/tests/e2e/sidepanes.steps.ts:333-351 | leaving a revealed pane arms a close 100 ms later; returning to the pane or its toggle before then, even after the clock was consulted in between, cancels it, so a check after the debounce would have expired finds the pane revealed with no timer |
| `HoverIntent.PinnedPaneIgnoresLeave` | packages/react-sidepanes/tests/e2e/sidepanes.steps.ts:162-192 | leaving a pinned pane starts no timer and changes nothing |
| `Coordinator.Mount` | packages/react-sidepanes/tests/unit/SidepanesContext.test.tsx:58-86 | mounting yields the configured panes recomputed against the viewport, with the layout invariant established |
| `Coordinator.DefaultMount` | packages/react-sidepanes/tests/unit/SidepanesContext.test.tsx:58-86 | mounted with no configuration in the tests' wide viewport, the panes are exactly the built-in defaults |
| `Coordinator.Open` | packages/react-sidepanes/tests/unit/SidepanesContext.test.tsx:88-114 | the public open acts on the panes as `OpenPane` does and keeps the layout invariant |
| `Coordinator.Close` | packages/react-sidepanes/tests/unit/SidepanesContext.test.tsx:88-114 | the public close acts on the panes as `ClosePane` does and keeps the layout invariant |
| `Coordinator.SetWidth` | packages/react-sidepanes/tests/unit/SidepanesContext.test.tsx:154-164 | the public width setter acts as `SetPaneWidth`, leaves the sensors alone and keeps the layout invariant |
| `Coordinator.Drag` | packages/react-sidepanes/tests/e2e/sidepanes.steps.ts:263-308 | a resize drag acts as `DragGesture` and keeps the layout invariant |
| `Coordinator.ViewportResized` | packages/react-sidepanes/tests/e2e/sidepanes.steps.ts:386-404 | a viewport change acts as `Recompute` and keeps the layout invariant |
| `Coordinator.Hover` | packages/react-sidepanes/tests/e2e/sidepanes.steps.ts:124-192 | a toggle click has exactly the effect of the public close (on a pinned pane) or open (otherwise); any other event follows the edge's state machine, leaves the pane's width and closed style, the other pane and its sensor alone, and keeps the layout invariant |
| `Coordinator.ClosedStylesAreFixed` | packages/react-sidepanes/tests/unit/SidepanesContext.test.tsx:166-206 | no operation (open, close, set width, drag, viewport change, hover event) changes either pane's closed style |
| `Coordinator.ToggleHoverRevealsClosedLeftPane` | packages/react-sidepanes/tests/e2e/sidepanes.steps.ts:324-331 | with the left pane closed to its compact bar, resting the pointer on its toggle for 600 ms reveals it, expanded and temporary |
| `Coordinator.HoverThenClickPinsRightPane` | packages/react-sidepanes/tests/e2e/sidepanes.steps.ts:69-83 | in the wide default layout, hovering the right edge reveals the right pane as expanded and temporary; clicking its toggle pins it (expanded, not temporary) and the left pane stays pinned |

## Left out

- The React provider and hook wiring are not modelled. This includes the error thrown when the hook is used outside a provider (SidepanesContext.test.tsx:141-152). It is framework plumbing, not layout state.
- Persistence is not modelled: the adapter's load/save, the local-storage adapter, restoring persisted widths, and the save at the end of a drag. The tests run with persistence disabled, so they fix no priority between persisted and configured values.
- Browser-level detail is not modelled: pointer coordinates, bounding boxes, selectors, ARIA and data attributes, CSS variables, and the sensors' dead-zone geometry (including the right edge's asymmetric dead zone). Only the outcomes are modelled, as abstract events: entering or leaving the trigger zone or the pane, a click, or a timer tick.
- Real timers and animation durations are not modelled. They are replaced by a virtual integer clock. The debounce of viewport-resize events is not modelled; each observed width is one `ViewportResized`.
- The disabled state of a pin button (sidepanes.steps.ts:377-380) is not modelled. No test shows the condition that disables it.
- `PaneStore.EnoughSpace` does not reserve room for a compact bar, following the `widthIfOpen` sum of the space test, so a layout that passes it can overflow the viewport by 40 px per closed compact pane (`PaneStore.CompactBarCanOverflowViewport`). No test fixes whether the bar should count.
- The numeric values of the largest side-pane width, the central region's bounds and the hover open delay stay symbolic. The model assumes `Limits.Valid()`, plus `max >= 330` in `PaneStore.WidenedPinnedPaneIsDrawnAtNewWidth` alone.
- `PaneStore.Recompute` does not demote a revealed (temporary) pane while the panes still fit. No test fixes what a recompute does to a revealed pane when there is enough space.

=== FILE: coordinator.dfy ===
/**
 The single surface the rendering layer talks to: both panes together with
 both edges' hover sensors. Every mutation funnels through here, so the
 layout invariant (widths in range, each sensor's timer in step with its
 pane's open state) holds after every event. When an arbitration closes a
 pane, any timer that pane had pending is cancelled.
 */
module Coordinator {
  import opened Pane
  import opened PaneStore
  import opened HoverIntent
  import Resize

  datatype Layout = Layout(panes: Panes, leftSensor: Sensor, rightSensor: Sensor) {

    function SensorOf(side: Side): Sensor {
      if side == Left then leftSensor else rightSensor
    }

    /** The edge on `side`: that pane's open state with that side's sensor. */
    function EdgeOf(side: Side): Edge {
      Edge(panes.Get(side).openState, SensorOf(side))
    }

    function WithSensor(side: Side, s: Sensor): Layout {
      if side == Left then this.(leftSensor := s) else this.(rightSensor := s)
    }
  }

  /** Widths in range, and each edge's timer in step with its pane. */
  predicate LayoutInvariant(l: Layout, limits: Limits) {
    && WellFormed(l.panes, limits)
    && HoverIntent.Consistent(l.EdgeOf(Left))
    && HoverIntent.Consistent(l.EdgeOf(Right))
  }

  /** A sensor whose pane changed open state behind its back loses its pending timer. */
  function Resync(sensor: Sensor, before: OpenState, after: OpenState): (r: Sensor)
    ensures r.lastClosedAt == sensor.lastClosedAt
    ensures before == after ==> r == sensor
    ensures before != after ==> r.timer == NoTimer
  {
    if before == after then sensor else sensor.(timer := NoTimer)
  }

  /** Replaces the panes, cancelling the timers of every pane whose open state changed. */
  function Adopt(l: Layout, panes: Panes): Layout {
    Layout(
      panes,
      Resync(l.leftSensor, l.panes.left.openState, panes.left.openState),
      Resync(l.rightSensor, l.panes.right.openState, panes.right.openState))
  }

  /**
   Mounting the provider: the configured panes, immediately checked against
   the viewport, with idle sensors.
   */
  function Mount(config: Config, viewportWidth: int, limits: Limits): (l: Layout)
    requires limits.Valid()
    ensures LayoutInvariant(l, limits)
    ensures l.panes == Recompute(Init(config, limits), viewportWidth, limits)
  {
    Layout(Recompute(Init(config, limits), viewportWidth, limits), IdleSensor, IdleSensor)
  }

  /**
   Mounted with no configuration in the wide viewport the unit tests set up,
   the panes are exactly the built-in defaults.
   */
  lemma DefaultMount(limits: Limits)
    requires limits.Valid()
    ensures
      var l := Mount(NoConfig, 2 * DEFAULT_SIDE_PANE_WIDTH + limits.centralPaneMaxWidth, limits);
      && l.panes.left == PaneState(Pinned, DEFAULT_SIDE_PANE_WIDTH, Compact)
      && l.panes.right == PaneState(Closed, DEFAULT_SIDE_PANE_WIDTH, Hidden)
  {
  }

  /** The public open operation: pins the pane and arbitrates. */
  function Open(l: Layout, side: Side, viewportWidth: int, limits: Limits): (r: Layout)
    ensures r.panes == OpenPane(l.panes, side, viewportWidth, limits)
    ensures LayoutInvariant(l, limits) ==> LayoutInvariant(r, limits)
  {
    Adopt(l, OpenPane(l.panes, side, viewportWidth, limits))
  }

  /** The public close operation: closes the pane and arbitrates. */
  function Close(l: Layout, side: Side, viewportWidth: int, limits: Limits): (r: Layout)
    ensures r.panes == ClosePane(l.panes, side, viewportWidth, limits)
    ensures LayoutInvariant(l, limits) ==> LayoutInvariant(r, limits)
  {
    Adopt(l, ClosePane(l.panes, side, viewportWidth, limits))
  }

  /** The public width setter. */
  function SetWidth(l: Layout, side: Side, px: int, limits: Limits): (r: Layout)
    requires limits.Valid()
    ensures r.panes == SetPaneWidth(l.panes, side, px, limits)
    ensures r.leftSensor == l.leftSensor && r.rightSensor == l.rightSensor
    ensures LayoutInvariant(l, limits) ==> LayoutInvariant(r, limits)
  {
    l.(panes := SetPaneWidth(l.panes, side, px, limits))
  }

  /** A resize drag on the handle of the pane on `side`. */
  function Drag(l: Layout, side: Side, startX: int, moves: seq<int>, limits: Limits): (r: Layout)
    requires limits.Valid()
    ensures LayoutInvariant(l, limits) ==> LayoutInvariant(r, limits)
    ensures r.panes == Resize.DragGesture(l.panes, side, startX, moves, limits)
  {
    l.(panes := Resize.DragGesture(l.panes, side, startX, moves, limits))
  }

  /** The viewport changed width: recompute, closing every pane if they no longer fit. */
  function ViewportResized(l: Layout, viewportWidth: int, limits: Limits): (r: Layout)
    ensures r.panes == Recompute(l.panes, viewportWidth, limits)
    ensures LayoutInvariant(l, limits) ==> LayoutInvariant(r, limits)
  {
    Adopt(l, Recompute(l.panes, viewportWidth, limits))
  }

  /**
   A pointer, toggle or timer event on the edge `side`. A toggle click is a
   pin/close transition and is arbitrated exactly like the public open and
   close operations; every other event only moves the pane between closed
   and revealed, touches neither pane's width nor the other pane, and is not
   arbitrated.
   */
  function Hover(l: Layout, side: Side, e: HoverEvent, now: int, viewportWidth: int, limits: Limits): (r: Layout)
    requires limits.Valid()
    ensures LayoutInvariant(l, limits) ==> LayoutInvariant(r, limits)
    ensures e == ToggleClick ==>
      r.panes == (if l.panes.Get(side).openState == Pinned then ClosePane(l.panes, side, viewportWidth, limits)
                  else OpenPane(l.panes, side, viewportWidth, limits))
    ensures e != ToggleClick ==>
      && r.panes.Get(side.Other()) == l.panes.Get(side.Other())
      && r.SensorOf(side.Other()) == l.SensorOf(side.Other())
      && r.panes.Get(side).width == l.panes.Get(side).width
      && r.panes.Get(side).closedStyle == l.panes.Get(side).closedStyle
      && r.EdgeOf(side) == Step(l.EdgeOf(side), e, now, limits)
  {
    var edge := Step(l.EdgeOf(side), e, now, limits);
    var stepped := l.(panes := SetOpenState(l.panes, side, edge.openState)).WithSensor(side, edge.sensor);
    if e == ToggleClick then
      Adopt(stepped, Arbitrate(stepped.panes, Some(side), viewportWidth, limits))
    else
      stepped
  }

  /** Both panes keep their closed styles. */
  predicate SameClosedStyles(a: Layout, b: Layout) {
    && a.panes.left.closedStyle == b.panes.left.closedStyle
    && a.panes.right.closedStyle == b.panes.right.closedStyle
  }

  /**
   A pane's closed style is fixed when the provider mounts: no operation on
   the layout changes either pane's closed style.
   */
  lemma ClosedStylesAreFixed(l: Layout, side: Side, px: int, startX: int, moves: seq<int>,
                             e: HoverEvent, now: int, viewportWidth: int, limits: Limits)
    requires limits.Valid()
    ensures SameClosedStyles(Open(l, side, viewportWidth, limits), l)
    ensures SameClosedStyles(Close(l, side, viewportWidth, limits), l)
    ensures SameClosedStyles(SetWidth(l, side, px, limits), l)
    ensures SameClosedStyles(Drag(l, side, startX, moves, limits), l)
    ensures SameClosedStyles(ViewportResized(l, viewportWidth, limits), l)
    ensures SameClosedStyles(Hover(l, side, e, now, viewportWidth, limits), l)
  {
  }

  /**
   The browser scenario for revealing the left pane from its toggle: with
   the left pane closed to its compact bar, resting the pointer on its
   toggle for 600 ms reveals it, expanded and marked temporary, without
   pinning it.
   */
  lemma ToggleHoverRevealsClosedLeftPane(t: int, limits: Limits)
    requires limits.Valid()
    ensures
      var wide := 2 * DEFAULT_SIDE_PANE_WIDTH + limits.centralPaneMaxWidth;
      var l0 := Close(Mount(NoConfig, wide, limits), Left, wide, limits);
      var l1 := Hover(Hover(l0, Left, EnterTriggerZone, t, wide, limits), Left, TimerTick, t + 600, wide, limits);
      && !l0.panes.left.IsExpanded() && l0.panes.left.IsRendered()
      && l1.panes.left.IsExpanded() && l1.panes.left.IsTemporary()
  {
  }

  /**
   The browser scenario for pinning the right pane: in the wide starting
   layout, hovering the right edge reveals the right pane (expanded and
   temporary); clicking its toggle then pins it (expanded, not temporary),
   and the pinned left pane stays pinned because both still fit.
   */
  lemma HoverThenClickPinsRightPane(t: int, limits: Limits)
    requires limits.Valid()
    ensures
      var wide := 2 * DEFAULT_SIDE_PANE_WIDTH + limits.centralPaneMaxWidth;
      var l0 := Mount(NoConfig, wide, limits);
      var l1 := Hover(Hover(l0, Right, EnterTriggerZone, t, wide, limits), Right, TimerTick, t + 600, wide, limits);
      var l2 := Hover(l1, Right, ToggleClick, t + 700, wide, limits);
      && l1.panes.right.IsExpanded() && l1.panes.right.IsTemporary()
      && l2.panes.right.IsExpanded() && !l2.panes.right.IsTemporary()
      && l2.panes.left.openState == Pinned
  {
  }
}

=== FILE: hover_intent.dfy ===
/**
 Hover intent for one edge. Each side has a sensor along its screen edge;
 dwelling in the sensor's trigger zone reveals the pane temporarily after an
 open delay, leaving a revealed pane closes it again after a short debounce,
 and a pane that has just closed that way cannot be revealed again until a
 cooldown has passed. A click on the pane's toggle bypasses all of this and
 flips the pane between closed and pinned.

 Time is a virtual clock: every event carries the instant it happens at, and
 a pending timer is a value recording when it is due. `TimerTick` stands for
 the event loop reaching an instant and firing the timer if it is due.
 Cancelling a timer is replacing it with `NoTimer`.
 */
module HoverIntent {
  import opened Pane

  /** Delay between the pointer leaving a revealed pane and the pane closing. */
  const LEAVE_DEBOUNCE: int := 100
  /** Time after a revealed pane closes during which hovering cannot reveal it. */
  const REOPEN_COOLDOWN: int := 500

  /** The one timer an edge can have pending. */
  datatype Timer =
    | NoTimer
      /** Reveal the pane at `due`. */
    | OpenAt(due: int)
      /** A hover arrived during the cooldown; look again when it ends at `until`. */
    | DeferredUntil(until: int)
      /** Close the revealed pane at `due`. */
    | CloseAt(due: int)

  /** The sensor's bookkeeping: the pending timer and when the pane last closed from a hover. */
  datatype Sensor = Sensor(timer: Timer, lastClosedAt: Option<int>)

  const IdleSensor: Sensor := Sensor(NoTimer, None)

  /** One edge: its pane's open state together with its sensor. */
  datatype Edge = Edge(openState: OpenState, sensor: Sensor)

  /**
   What the host environment reports about the pointer and the toggle. The
   toggle of a closed pane sits on the pane's edge, so the pointer resting on
   it is reported as entering the trigger zone, and moving off it as leaving
   the zone; the pane events concern an expanded pane only.
   */
  datatype HoverEvent =
      /** The pointer entered the edge sensor's trigger zone, or the toggle of a closed pane. */
    | EnterTriggerZone
      /** The pointer left the trigger zone, or the toggle of a closed pane. */
    | LeaveTriggerZone
      /** The pointer is over the expanded pane or its toggle. */
    | EnterPane
      /** The pointer has left both the expanded pane and its toggle. */
    | LeavePane
    | ToggleClick
    | TimerTick

  datatype TimedEvent = TimedEvent(at: int, event: HoverEvent)

  /** A hover at `now` falls within the cooldown of the last hover close. */
  predicate InCooldown(lastClosedAt: Option<int>, now: int) {
    lastClosedAt.Some? && now < lastClosedAt.value + REOPEN_COOLDOWN
  }

  /**
   The timer always fits the open state: only a closed pane waits to open,
   only a revealed pane waits to close, a deferred hover waits exactly for
   the end of the current cooldown, and a pending reveal never falls inside
   a cooldown.
   */
  predicate Consistent(s: Edge) {
    match s.sensor.timer
    case NoTimer => true
    case OpenAt(due) =>
      && s.openState == Closed
      && (s.sensor.lastClosedAt.Some? ==> due >= s.sensor.lastClosedAt.value + REOPEN_COOLDOWN)
    case DeferredUntil(until) =>
      && s.openState == Closed
      && s.sensor.lastClosedAt == Some(until - REOPEN_COOLDOWN)
    case CloseAt(_) => s.openState == Temporary
  }

  function WithTimer(s: Edge, t: Timer): Edge {
    s.(sensor := s.sensor.(timer := t))
  }

  /** Fires the pending timer if it is due at `now`. */
  function Fire(s: Edge, now: int, limits: Limits): Edge {
    match s.sensor.timer
    case NoTimer => s
    case OpenAt(due) =>
      if now >= due && s.openState == Closed then Edge(Temporary, s.sensor.(timer := NoTimer)) else s
    case DeferredUntil(until) =>
      if now >= until && s.openState == Closed then WithTimer(s, OpenAt(until + limits.hoverOpenDelay)) else s
    case CloseAt(due) =>
      if now >= due && s.openState == Temporary then Edge(Closed, Sensor(NoTimer, Some(due))) else s
  }

  /**
   One event on one edge at instant `now`.
   A pinned pane ignores everything but its toggle. A click pins a closed or
   revealed pane and closes a pinned one, cancelling any timer. Only a due
   open timer reveals a pane, only a due leave timer closes a revealed one
   (recording when), and while the cooldown runs a closed pane stays closed.
   */
  function Step(s: Edge, e: HoverEvent, now: int, limits: Limits): (r: Edge)
    requires limits.Valid()
    ensures Consistent(s) ==> Consistent(r)
    ensures s.openState == Pinned && e != ToggleClick ==> r == s
    ensures r.openState == Pinned && s.openState != Pinned ==> e == ToggleClick
    ensures e == ToggleClick ==>
      && r.openState == (if s.openState == Pinned then Closed else Pinned)
      && r.sensor == s.sensor.(timer := NoTimer)
    ensures r.openState == Temporary && s.openState != Temporary ==>
      e == TimerTick && s.sensor.timer.OpenAt? && now >= s.sensor.timer.due
    ensures s.openState == Temporary && r.openState == Closed ==>
      && e == TimerTick && s.sensor.timer.CloseAt? && now >= s.sensor.timer.due
      && r.sensor.lastClosedAt == Some(s.sensor.timer.due)
    ensures Consistent(s) && s.openState == Closed && InCooldown(s.sensor.lastClosedAt, now) && e != ToggleClick ==>
      r.openState == Closed && r.sensor.lastClosedAt == s.sensor.lastClosedAt
  {
    match e
    case EnterTriggerZone =>
      if s.openState == Closed && s.sensor.timer == NoTimer then
        if InCooldown(s.sensor.lastClosedAt, now) then
          WithTimer(s, DeferredUntil(s.sensor.lastClosedAt.value + REOPEN_COOLDOWN))
        else
          WithTimer(s, OpenAt(now + limits.hoverOpenDelay))
      else s
    case LeaveTriggerZone =>
      if s.openState == Closed && (s.sensor.timer.OpenAt? || s.sensor.timer.DeferredUntil?) then
        WithTimer(s, NoTimer)
      else s
    case EnterPane =>
      if s.openState == Temporary && s.sensor.timer.CloseAt? then WithTimer(s, NoTimer) else s
    case LeavePane =>
      if s.openState == Temporary && s.sensor.timer == NoTimer then
        WithTimer(s, CloseAt(now + LEAVE_DEBOUNCE))
      else s
    case ToggleClick =>
      Edge(if s.openState == Pinned then Closed else Pinned, s.sensor.(timer := NoTimer))
    case TimerTick =>
      Fire(s, now, limits)
  }

  /** Feeds a sequence of timed events to an edge, in order. */
  function Run(s: Edge, events: seq<TimedEvent>, limits: Limits): Edge
    requires limits.Valid()
    decreases |events|
  {
    if |events| == 0 then s
    else Run(Step(s, events[0].event, events[0].at, limits), events[1..], limits)
  }

  /** Running events one after another is running their concatenation. */
  lemma {:induction false} RunAppend(s: Edge, xs: seq<TimedEvent>, ys: seq<TimedEvent>, limits: Limits)
    requires limits.Valid()
    ensures Run(s, xs + ys, limits) == Run(Run(s, xs, limits), ys, limits)
    decreases |xs|
  {
    if |xs| > 0 {
      assert (xs + ys)[1..] == xs[1..] + ys;
      RunAppend(Step(s, xs[0].event, xs[0].at, limits), xs[1..], ys, limits);
    } else {
      assert xs + ys == ys;
    }
  }

  /** Running one event is taking one step. */
  lemma RunOne(s: Edge, a: TimedEvent, limits: Limits)
    requires limits.Valid()
    ensures Run(s, [a], limits) == Step(s, a.event, a.at, limits)
  {
  }

  /** Running two events is taking two steps. */
  lemma RunTwo(s: Edge, a: TimedEvent, b: TimedEvent, limits: Limits)
    requires limits.Valid()
    ensures Run(s, [a, b], limits) == Step(Step(s, a.event, a.at, limits), b.event, b.at, limits)
  {
    assert [a, b][1..] == [b];
    RunOne(Step(s, a.event, a.at, limits), b, limits);
  }

  /** Running three events is taking three steps. */
  lemma RunThree(s: Edge, a: TimedEvent, b: TimedEvent, c: TimedEvent, limits: Limits)
    requires limits.Valid()
    ensures Run(s, [a, b, c], limits)
      == Step(Step(Step(s, a.event, a.at, limits), b.event, b.at, limits), c.event, c.at, limits)
  {
    assert [a, b, c][1..] == [b, c];
    RunTwo(Step(s, a.event, a.at, limits), b, c, limits);
  }

  /** No sequence of events can bring the timer out of step with the open state. */
  lemma {:induction false} RunPreservesConsistency(s: Edge, events: seq<TimedEvent>, limits: Limits)
    requires limits.Valid()
    requires Consistent(s)
    ensures Consistent(Run(s, events, limits))
    decreases |events|
  {
    if |events| > 0 {
      RunPreservesConsistency(Step(s, events[0].event, events[0].at, limits), events[1..], limits);
    }
  }

  /** Every event happens before the cooldown that began at `closedAt` ends. */
  predicate AllWithinCooldown(events: seq<TimedEvent>, closedAt: int) {
    forall i :: 0 <= i < |events| ==> events[i].at < closedAt + REOPEN_COOLDOWN
  }

  /** No event is a click on the toggle. */
  predicate NoClicks(events: seq<TimedEvent>) {
    forall i :: 0 <= i < |events| ==> events[i].event != ToggleClick
  }

  /**
   Whatever the pointer does and however often the clock is consulted, a
   pane that closed from a hover at `closedAt` stays closed until the cooldown
   has elapsed, unless its toggle is clicked.
   */
  lemma {:induction false} CooldownKeepsPaneClosed(s: Edge, closedAt: int, events: seq<TimedEvent>, limits: Limits)
    requires limits.Valid()
    requires Consistent(s)
    requires s.openState == Closed && s.sensor.lastClosedAt == Some(closedAt)
    requires AllWithinCooldown(events, closedAt)
    requires NoClicks(events)
    ensures Run(s, events, limits).openState == Closed
    decreases |events|
  {
    if |events| > 0 {
      var next := Step(s, events[0].event, events[0].at, limits);
      assert events[0].event != ToggleClick;
      assert InCooldown(s.sensor.lastClosedAt, events[0].at);
      var rest := events[1..];
      assert AllWithinCooldown(rest, closedAt) by {
        forall i | 0 <= i < |rest| ensures rest[i].at < closedAt + REOPEN_COOLDOWN {
          assert rest[i] == events[i + 1];
        }
      }
      assert NoClicks(rest) by {
        forall i | 0 <= i < |rest| ensures rest[i].event != ToggleClick {
          assert rest[i] == events[i + 1];
        }
      }
      CooldownKeepsPaneClosed(next, closedAt, rest, limits);
    }
  }

  /**
   The browser scenario: a revealed pane is left, closes when its debounce
   expires, and a hover arriving a little later (but within the cooldown)
   leaves it closed when checked shortly afterwards.
   */
  lemma ImmediateRehoverStaysClosed(t0: int, limits: Limits)
    requires limits.Valid()
    ensures
      var revealed := Edge(Temporary, IdleSensor);
      var closed := Run(revealed, [TimedEvent(t0, LeavePane), TimedEvent(t0 + LEAVE_DEBOUNCE, TimerTick)], limits);
      var after := Run(closed, [TimedEvent(t0 + 350, EnterTriggerZone), TimedEvent(t0 + 400, TimerTick)], limits);
      && closed == Edge(Closed, Sensor(NoTimer, Some(t0 + LEAVE_DEBOUNCE)))
      && after.openState == Closed
  {
    var revealed := Edge(Temporary, IdleSensor);
    RunTwo(revealed, TimedEvent(t0, LeavePane), TimedEvent(t0 + LEAVE_DEBOUNCE, TimerTick), limits);
    var closed := Run(revealed, [TimedEvent(t0, LeavePane), TimedEvent(t0 + LEAVE_DEBOUNCE, TimerTick)], limits);
    var events := [TimedEvent(t0 + 350, EnterTriggerZone), TimedEvent(t0 + 400, TimerTick)];
    CooldownKeepsPaneClosed(closed, t0 + LEAVE_DEBOUNCE, events, limits);
  }

  /**
   Dwelling in the trigger zone of a closed pane outside any cooldown reveals
   it by the time the browser scenarios look (600 ms later), with no timer
   left pending and its cooldown record untouched.
   */
  lemma HoverRevealsTemporaryPane(s: Edge, now: int, limits: Limits)
    requires limits.Valid()
    requires s.openState == Closed && s.sensor.timer == NoTimer
    requires !InCooldown(s.sensor.lastClosedAt, now)
    ensures
      var r := Run(s, [TimedEvent(now, EnterTriggerZone), TimedEvent(now + 600, TimerTick)], limits);
      r == Edge(Temporary, s.sensor)
  {
    RunTwo(s, TimedEvent(now, EnterTriggerZone), TimedEvent(now + 600, TimerTick), limits);
  }

  /** No event enters the trigger zone or clicks the toggle. */
  predicate NoEntriesOrClicks(events: seq<TimedEvent>) {
    forall i :: 0 <= i < |events| ==> events[i].event != EnterTriggerZone && events[i].event != ToggleClick
  }

  /**
   A closed pane with no timer pending stays exactly as it is until the
   pointer enters the trigger zone or the toggle is clicked: moving over or
   off the pane, leaving the zone and the clock advancing change nothing.
   */
  lemma {:induction false} IdleClosedEdgeStaysIdle(s: Edge, events: seq<TimedEvent>, limits: Limits)
    requires limits.Valid()
    requires s.openState == Closed && s.sensor.timer == NoTimer
    requires NoEntriesOrClicks(events)
    ensures Run(s, events, limits) == s
    decreases |events|
  {
    if |events| > 0 {
      assert events[0].event != EnterTriggerZone && events[0].event != ToggleClick;
      assert Step(s, events[0].event, events[0].at, limits) == s;
      var rest := events[1..];
      assert NoEntriesOrClicks(rest) by {
        forall i | 0 <= i < |rest| ensures rest[i].event != EnterTriggerZone && rest[i].event != ToggleClick {
          assert rest[i] == events[i + 1];
        }
      }
      IdleClosedEdgeStaysIdle(s, rest, limits);
    }
  }

  /**
   Entering the trigger zone of a closed pane and leaving it before the open
   delay has passed cancels the reveal. A check of the clock in between
   finds the pane still closed with the reveal pending; after the leave,
   whatever follows short of entering the zone again or clicking the toggle,
   the edge is back where it started and the pane stays closed. This holds
   inside a cooldown too, where the leave cancels the deferred hover.
   */
  lemma LeavingTriggerZoneCancelsReveal(s: Edge, t: int, mid: int, left: int, rest: seq<TimedEvent>, limits: Limits)
    requires limits.Valid()
    requires s.openState == Closed && s.sensor.timer == NoTimer
    requires t <= mid <= left < t + limits.hoverOpenDelay
    requires NoEntriesOrClicks(rest)
    ensures
      var pending := Run(s, [TimedEvent(t, EnterTriggerZone), TimedEvent(mid, TimerTick)], limits);
      pending.openState == Closed && pending.sensor.timer != NoTimer
    ensures
      Run(s, [TimedEvent(t, EnterTriggerZone), TimedEvent(mid, TimerTick), TimedEvent(left, LeaveTriggerZone)] + rest, limits)
        == s
  {
    var hover := [TimedEvent(t, EnterTriggerZone), TimedEvent(mid, TimerTick), TimedEvent(left, LeaveTriggerZone)];
    RunTwo(s, hover[0], hover[1], limits);
    RunAppend(s, hover, rest, limits);
    RunThree(s, hover[0], hover[1], hover[2], limits);
    IdleClosedEdgeStaysIdle(s, rest, limits);
  }

  /**
   Leaving a revealed pane arms the leave debounce: a check before it
   expires finds the pane still revealed and the close pending; a check at
   or after it finds the pane closed, with the close time recorded as the
   start of the cooldown.
   */
  lemma LeaveClosesAfterDebounce(s: Edge, t: int, check: int, limits: Limits)
    requires limits.Valid()
    requires s.openState == Temporary && s.sensor.timer == NoTimer
    ensures
      var r := Run(s, [TimedEvent(t, LeavePane), TimedEvent(check, TimerTick)], limits);
      r == if check >= t + LEAVE_DEBOUNCE then Edge(Closed, Sensor(NoTimer, Some(t + LEAVE_DEBOUNCE)))
           else Edge(Temporary, s.sensor.(timer := CloseAt(t + LEAVE_DEBOUNCE)))
  {
    RunTwo(s, TimedEvent(t, LeavePane), TimedEvent(check, TimerTick), limits);
  }

  /**
   A hover that arrives during the cooldown and stays in the trigger zone is
   looked at again when the cooldown ends, and then reveals the pane after
   the open delay.
   */
  lemma DeferredHoverRevealsAfterCooldown(closedAt: int, now: int, limits: Limits)
    requires limits.Valid()
    requires now < closedAt + REOPEN_COOLDOWN
    ensures
      var s := Edge(Closed, Sensor(NoTimer, Some(closedAt)));
      var reopenAt := closedAt + REOPEN_COOLDOWN;
      var r := Run(s, [TimedEvent(now, EnterTriggerZone), TimedEvent(reopenAt, TimerTick),
                       TimedEvent(reopenAt + limits.hoverOpenDelay, TimerTick)], limits);
      r.openState == Temporary
  {
    var s := Edge(Closed, Sensor(NoTimer, Some(closedAt)));
    var reopenAt := closedAt + REOPEN_COOLDOWN;
    RunThree(s, TimedEvent(now, EnterTriggerZone), TimedEvent(reopenAt, TimerTick),
             TimedEvent(reopenAt + limits.hoverOpenDelay, TimerTick), limits);
  }

  /**
   Leaving a revealed pane and coming back (to the pane or its toggle) before
   the debounce expires cancels the close: the clock may be consulted
   before the return and again once the debounce would have expired, and
   the pane is revealed throughout.
   */
  lemma ReenteringCancelsClose(t: int, mid: int, back: int, later: int, limits: Limits)
    requires limits.Valid()
    requires t <= mid <= back < t + LEAVE_DEBOUNCE <= later
    ensures
      var s := Edge(Temporary, IdleSensor);
      var leave := [TimedEvent(t, LeavePane), TimedEvent(mid, TimerTick)];
      var ret := [TimedEvent(back, EnterPane), TimedEvent(later, TimerTick)];
      && Run(s, leave, limits) == Edge(Temporary, Sensor(CloseAt(t + LEAVE_DEBOUNCE), None))
      && Run(s, leave + ret, limits) == s
  {
    var s := Edge(Temporary, IdleSensor);
    var leave := [TimedEvent(t, LeavePane), TimedEvent(mid, TimerTick)];
    var ret := [TimedEvent(back, EnterPane), TimedEvent(later, TimerTick)];
    RunAppend(s, leave, ret, limits);
    RunTwo(s, leave[0], leave[1], limits);
    RunTwo(Run(s, leave, limits), ret[0], ret[1], limits);
  }

  /** Leaving a pinned pane starts no timer and changes nothing. */
  lemma PinnedPaneIgnoresLeave(s: Edge, now: int, limits: Limits)
    requires limits.Valid()
    requires s.openState == Pinned
    ensures Step(s, LeavePane, now, limits) == s
  {
  }
}

=== FILE: pane.dfy ===
/**
 The vocabulary shared by every part of the side-pane layout: the two sides,
 the three open states, the two closed styles, the per-pane state record,
 the fixed pixel constants, and the values the rendering layer derives from
 a pane's state (whether it is expanded, temporary, rendered, and how wide
 it is drawn).
 */
module Pane {

  /** Width a side pane gets when nothing else says otherwise. */
  const DEFAULT_SIDE_PANE_WIDTH: int := 320
  /** Narrowest width a side pane may be given. */
  const MIN_SIDE_PANE_WIDTH: int := 200
  /** Width of the bar a closed pane with the compact style is drawn as. */
  const COMPACT_SIDE_PANE_WIDTH: int := 40

  datatype Option<T> = None | Some(value: T) {
    /** The carried value, or `default` when there is none. */
    function GetOr(default: T): T {
      match this
      case Some(v) => v
      case None => default
    }
  }

  datatype Side = Left | Right {
    /** The pane on the opposite edge of the central region. */
    function Other(): (o: Side)
      ensures o != this
    {
      if Left? then Right else Left
    }
  }

  /**
   `Temporary` is the hover-revealed state, `Pinned` the one the user
   committed to with a click or the open API, `Closed` the rest state.
   */
  datatype OpenState = Closed | Temporary | Pinned

  /** How a closed pane is drawn: not at all, or as a narrow bar. */
  datatype ClosedStyle = Hidden | Compact

  /**
   The constants whose values the layout depends on but which the
   library's tests do not fix: the widest a side pane may be, the central
   region's minimum and maximum width, and the delay between the pointer
   entering an edge sensor's trigger zone and the pane opening.
   */
  datatype Limits = Limits(
    maxSidePaneWidth: int,
    centralPaneMinWidth: int,
    centralPaneMaxWidth: int,
    hoverOpenDelay: int)
  {
    /**
     What the layout assumes of these constants: the side-pane range
     contains the default width with room to grow, the central range is
     non-empty, and a hover opens a pane within the 600 ms the browser
     scenarios wait after moving onto a sensor.
     */
    predicate Valid() {
      && MIN_SIDE_PANE_WIDTH < DEFAULT_SIDE_PANE_WIDTH < maxSidePaneWidth
      && 0 <= centralPaneMinWidth <= centralPaneMaxWidth
      && 0 < hoverOpenDelay <= 600
    }
  }

  /** A width the store accepts for a side pane. */
  predicate WidthInRange(w: int, limits: Limits) {
    MIN_SIDE_PANE_WIDTH <= w <= limits.maxSidePaneWidth
  }

  /** Distance between two widths. */
  function Dist(a: int, b: int): nat {
    if a <= b then b - a else a - b
  }

  /**
   The width actually stored when `px` is requested: the in-range width
   nearest to the request. Out-of-range requests are corrected, never
   rejected.
   */
  function ClampWidth(px: int, limits: Limits): (w: int)
    requires limits.Valid()
    ensures WidthInRange(w, limits)
    ensures forall v :: WidthInRange(v, limits) ==> Dist(w, px) <= Dist(v, px)
    ensures WidthInRange(px, limits) ==> w == px
  {
    if px < MIN_SIDE_PANE_WIDTH then MIN_SIDE_PANE_WIDTH
    else if px > limits.maxSidePaneWidth then limits.maxSidePaneWidth
    else px
  }

  /** The state of one side pane, as the store exposes it. */
  datatype PaneState = PaneState(openState: OpenState, width: int, closedStyle: ClosedStyle) {

    /** The pane is shown at its full width (hover-revealed or pinned). */
    predicate IsExpanded() {
      openState != Closed
    }

    /** The pane is shown only because the pointer revealed it. */
    predicate IsTemporary() {
      openState == Temporary
    }

    /** The pane is present in the layout at all. */
    predicate IsRendered() {
      IsExpanded() || closedStyle == Compact
    }

    /** The same pane, closed; its width and closed style are kept. */
    function Closing(): (p: PaneState)
      ensures !p.IsExpanded()
      ensures p.width == width && p.closedStyle == closedStyle
    {
      this.(openState := Closed)
    }
  }

  /**
   The width, in pixels, a pane occupies on screen: its stored width while
   expanded, the compact bar's width while closed with the compact style,
   and nothing while closed with the hidden style.
   */
  function SidepaneWidthInPx(p: PaneState): (px: int)
    ensures p.IsExpanded() ==> px == p.width
    ensures p.IsRendered() && !p.IsExpanded() ==> px == COMPACT_SIDE_PANE_WIDTH
    ensures !p.IsRendered() ==> px == 0
  {
    match p.openState
    case Closed => if p.closedStyle == Compact then COMPACT_SIDE_PANE_WIDTH else 0
    case _ => p.width
  }

  /**
   For a pane whose width is in range, the drawn width alone tells the
   three renderings apart: no width means absent, the compact width means
   a closed bar, and anything from the minimum up means expanded.
   */
  lemma RenderedWidthDistinguishesStates(p: PaneState, limits: Limits)
    requires WidthInRange(p.width, limits)
    ensures SidepaneWidthInPx(p) == 0 <==> !p.IsRendered()
    ensures SidepaneWidthInPx(p) == COMPACT_SIDE_PANE_WIDTH <==> p.IsRendered() && !p.IsExpanded()
    ensures SidepaneWidthInPx(p) >= MIN_SIDE_PANE_WIDTH <==> p.IsExpanded()
  {
  }
}

=== FILE: pane_store.dfy ===
/**
 The pane state store: the pair of pane states, their initialisation from
 per-side configuration merged over built-in defaults, the public
 open/close/resize operations, and the viewport recomputation that closes
 panes when the viewport has become too narrow.

 The viewport width is read from the host environment by the library; here
 it is an explicit parameter of every operation that consults it.
 */
module PaneStore {
  import opened Pane
  import opened SpaceArbiter

  /** Both panes, the single source of truth for the layout. */
  datatype Panes = Panes(left: PaneState, right: PaneState) {

    function Get(side: Side): PaneState {
      if side == Left then left else right
    }

    /** The same pair with the pane on `side` replaced by `p`. */
    function With(side: Side, p: PaneState): (r: Panes)
      ensures r.Get(side) == p
      ensures r.Get(side.Other()) == Get(side.Other())
    {
      if side == Left then this.(left := p) else this.(right := p)
    }
  }

  /** Every pane width lies in the accepted range. */
  predicate WellFormed(panes: Panes, limits: Limits) {
    WidthInRange(panes.left.width, limits) && WidthInRange(panes.right.width, limits)
  }

  // ---------------------------------------------------------------------
  // Initialisation
  // ---------------------------------------------------------------------

  /** A partial pane configuration: each field overrides the default when given. */
  datatype PaneConfig = PaneConfig(openState: Option<OpenState>, width: Option<int>, closedStyle: Option<ClosedStyle>)

  const NoOverrides: PaneConfig := PaneConfig(None, None, None)

  /** The provider's configuration: one optional override record per side. */
  datatype Config = Config(defaultLeftPane: PaneConfig, defaultRightPane: PaneConfig) {
    function For(side: Side): PaneConfig {
      if side == Left then defaultLeftPane else defaultRightPane
    }
  }

  const NoConfig: Config := Config(NoOverrides, NoOverrides)

  /**
   The built-in defaults: the left pane starts pinned and shrinks to a
   compact bar when closed; the right pane starts closed and disappears
   when closed. Both start at the default width.
   */
  function BuiltInDefault(side: Side): (p: PaneState)
    ensures p.width == DEFAULT_SIDE_PANE_WIDTH
    ensures side == Left ==> p.openState == Pinned && p.closedStyle == Compact
    ensures side == Right ==> p.openState == Closed && p.closedStyle == Hidden
  {
    match side
    case Left => PaneState(Pinned, DEFAULT_SIDE_PANE_WIDTH, Compact)
    case Right => PaneState(Closed, DEFAULT_SIDE_PANE_WIDTH, Hidden)
  }

  /** The initial state of one pane: each configured field wins over the default. */
  function MergePaneConfig(side: Side, c: PaneConfig, limits: Limits): (p: PaneState)
    requires limits.Valid()
    ensures p.openState == (if c.openState.Some? then c.openState.value else BuiltInDefault(side).openState)
    ensures p.closedStyle == (if c.closedStyle.Some? then c.closedStyle.value else BuiltInDefault(side).closedStyle)
    ensures WidthInRange(p.width, limits)
    ensures c.width.None? ==> p.width == DEFAULT_SIDE_PANE_WIDTH
    ensures c.width.Some? && WidthInRange(c.width.value, limits) ==> p.width == c.width.value
    ensures c.width.Some? ==> forall v :: WidthInRange(v, limits) ==> Dist(p.width, c.width.value) <= Dist(v, c.width.value)
  {
    var d := BuiltInDefault(side);
    PaneState(
      c.openState.GetOr(d.openState),
      ClampWidth(c.width.GetOr(d.width), limits),
      c.closedStyle.GetOr(d.closedStyle))
  }

  /**
   The store as the provider creates it. Each pane is determined by its own
   side's configuration alone, so overriding one side leaves the other at
   its defaults.
   */
  function Init(config: Config, limits: Limits): (s: Panes)
    requires limits.Valid()
    ensures WellFormed(s, limits)
    ensures forall side :: s.Get(side) == MergePaneConfig(side, config.For(side), limits)
  {
    Panes(
      MergePaneConfig(Left, config.defaultLeftPane, limits),
      MergePaneConfig(Right, config.defaultRightPane, limits))
  }

  /**
   With no configuration the left pane is pinned, compact when closed, and
   the right pane closed and hidden, both at the default width.
   */
  lemma DefaultInitialization(limits: Limits)
    requires limits.Valid()
    ensures Init(NoConfig, limits).left == PaneState(Pinned, DEFAULT_SIDE_PANE_WIDTH, Compact)
    ensures Init(NoConfig, limits).right == PaneState(Closed, DEFAULT_SIDE_PANE_WIDTH, Hidden)
  {
  }

  /**
   Configuring the closed style of one side changes that side's style and
   leaves the other side with its default style.
   */
  lemma ClosedStyleOverrideIsPerSide(side: Side, style: ClosedStyle, limits: Limits)
    requires limits.Valid()
    ensures
      var config := if side == Left then Config(PaneConfig(None, None, Some(style)), NoOverrides)
                    else Config(NoOverrides, PaneConfig(None, None, Some(style)));
      var s := Init(config, limits);
      && s.Get(side).closedStyle == style
      && s.Get(side.Other()) == BuiltInDefault(side.Other())
  {
  }

  // ---------------------------------------------------------------------
  // Space
  // ---------------------------------------------------------------------

  /** The width a pane claims from the viewport: its full width while expanded. */
  function WidthIfOpen(p: PaneState): (w: int)
    ensures p.IsExpanded() ==> w == p.width
    ensures !p.IsExpanded() ==> w == 0
  {
    if p.IsExpanded() then p.width else 0
  }

  /**
   The viewport holds both panes at their widths (where expanded) next to
   the central region at its minimum width.
   */
  predicate EnoughSpace(panes: Panes, viewportWidth: int, limits: Limits) {
    viewportWidth >= WidthIfOpen(panes.left) + WidthIfOpen(panes.right) + limits.centralPaneMinWidth
  }

  /**
   Having enough space is kept by a wider viewport and by closing a pane:
   the test only ever asks for more room as panes open or the viewport
   narrows.
   */
  lemma EnoughSpaceIsMonotone(panes: Panes, side: Side, viewportWidth: int, wider: int, limits: Limits)
    requires WellFormed(panes, limits)
    requires EnoughSpace(panes, viewportWidth, limits)
    requires viewportWidth <= wider
    ensures EnoughSpace(panes, wider, limits)
    ensures EnoughSpace(panes.With(side, panes.Get(side).Closing()), viewportWidth, limits)
  {
  }

  /**
   The viewport the unit tests start from, two default-width panes next to
   the central region at its maximum width, is wide enough whatever the
   panes' states.
   */
  lemma WideViewportHasEnoughSpace(panes: Panes, limits: Limits)
    requires limits.Valid()
    requires panes.left.width == DEFAULT_SIDE_PANE_WIDTH && panes.right.width == DEFAULT_SIDE_PANE_WIDTH
    ensures EnoughSpace(panes, 2 * DEFAULT_SIDE_PANE_WIDTH + limits.centralPaneMaxWidth, limits)
  {
  }

  /**
   A viewport only as wide as the central region's minimum cannot also hold
   an expanded pane.
   */
  lemma CentralMinimumViewportLacksSpace(panes: Panes, limits: Limits)
    requires WellFormed(panes, limits)
    requires panes.left.IsExpanded() || panes.right.IsExpanded()
    ensures !EnoughSpace(panes, limits.centralPaneMinWidth, limits)
  {
  }

  /**
   The central region's width: what the drawn side panes leave of the
   viewport (a compact bar still takes its width), kept within the central
   region's own bounds. When that remainder is within bounds, the three
   regions exactly fill the viewport.
   */
  function CentralPaneWidth(panes: Panes, viewportWidth: int, limits: Limits): (w: int)
    requires limits.Valid()
    ensures limits.centralPaneMinWidth <= w <= limits.centralPaneMaxWidth
    ensures
      var rest := viewportWidth - SidepaneWidthInPx(panes.left) - SidepaneWidthInPx(panes.right);
      && (limits.centralPaneMinWidth <= rest <= limits.centralPaneMaxWidth ==> w == rest)
      && (rest > limits.centralPaneMaxWidth ==> w == limits.centralPaneMaxWidth)
      && (rest < limits.centralPaneMinWidth ==> w == limits.centralPaneMinWidth)
  {
    var rest := viewportWidth - SidepaneWidthInPx(panes.left) - SidepaneWidthInPx(panes.right);
    if rest < limits.centralPaneMinWidth then limits.centralPaneMinWidth
    else if rest > limits.centralPaneMaxWidth then limits.centralPaneMaxWidth
    else rest
  }

  /** The number of panes drawn as a closed compact bar. */
  function CompactBars(panes: Panes): (n: nat)
    ensures n <= 2
    ensures n == 0 <==>
      && (panes.left.IsExpanded() || panes.left.closedStyle == Hidden)
      && (panes.right.IsExpanded() || panes.right.closedStyle == Hidden)
  {
    (if panes.left.IsRendered() && !panes.left.IsExpanded() then 1 else 0)
    + (if panes.right.IsRendered() && !panes.right.IsExpanded() then 1 else 0)
  }

  /**
   When the panes fit, the drawn side panes and the central region fill at
   most the viewport plus one compact bar's width per closed compact pane:
   the space test does not reserve room for compact bars, so each may push
   the layout past the viewport by at most its own width. With no compact
   bar, the three regions fit in the viewport.
   */
  lemma FittingPanesLeaveCentralRoom(panes: Panes, viewportWidth: int, limits: Limits)
    requires limits.Valid()
    requires EnoughSpace(panes, viewportWidth, limits)
    ensures
      SidepaneWidthInPx(panes.left) + SidepaneWidthInPx(panes.right) + CentralPaneWidth(panes, viewportWidth, limits)
        <= viewportWidth + CompactBars(panes) * COMPACT_SIDE_PANE_WIDTH
    ensures CompactBars(panes) == 0 ==>
      SidepaneWidthInPx(panes.left) + SidepaneWidthInPx(panes.right) + CentralPaneWidth(panes, viewportWidth, limits)
        <= viewportWidth
  {
  }

  /**
   The allowance for compact bars is needed: a closed compact left pane next
   to a pinned right pane, in a viewport holding exactly the right pane and
   the central minimum, passes the space test, so a recompute keeps the
   layout, yet the drawn regions exceed the viewport by the compact width.
   */
  lemma CompactBarCanOverflowViewport(limits: Limits)
    requires limits.Valid()
    ensures
      var panes := Panes(PaneState(Closed, DEFAULT_SIDE_PANE_WIDTH, Compact),
                         PaneState(Pinned, DEFAULT_SIDE_PANE_WIDTH, Hidden));
      var viewportWidth := DEFAULT_SIDE_PANE_WIDTH + limits.centralPaneMinWidth;
      && EnoughSpace(panes, viewportWidth, limits)
      && Recompute(panes, viewportWidth, limits) == panes
      && SidepaneWidthInPx(panes.left) + SidepaneWidthInPx(panes.right) + CentralPaneWidth(panes, viewportWidth, limits)
           == viewportWidth + COMPACT_SIDE_PANE_WIDTH
  {
  }

  /**
   In the unit tests' starting viewport, two expanded default-width panes
   leave the central region exactly its maximum width.
   */
  lemma WideViewportFitsCentralMaximum(panes: Panes, limits: Limits)
    requires limits.Valid()
    requires panes.left.width == DEFAULT_SIDE_PANE_WIDTH && panes.right.width == DEFAULT_SIDE_PANE_WIDTH
    requires panes.left.IsExpanded() && panes.right.IsExpanded()
    ensures CentralPaneWidth(panes, 2 * DEFAULT_SIDE_PANE_WIDTH + limits.centralPaneMaxWidth, limits)
      == limits.centralPaneMaxWidth
  {
  }

  /** Closes the panes the arbitration selected; nothing else changes. */
  function ApplyClosures(panes: Panes, c: Closures): (r: Panes)
    ensures forall side :: r.Get(side) == (if c.Closes(side) then panes.Get(side).Closing() else panes.Get(side))
  {
    Panes(
      if c.closeLeft then panes.left.Closing() else panes.left,
      if c.closeRight then panes.right.Closing() else panes.right)
  }

  /** Runs the space arbitration on the current state and applies its decision. */
  function Arbitrate(panes: Panes, paneChanged: Option<Side>, viewportWidth: int, limits: Limits): Panes {
    ApplyClosures(panes, ComputePanesToClose(
      EnoughSpace(panes, viewportWidth, limits), paneChanged,
      panes.left.IsExpanded(), panes.right.IsExpanded()))
  }

  // ---------------------------------------------------------------------
  // Public operations
  // ---------------------------------------------------------------------

  /** The same pair with the pane on `side` in state `st`. */
  function SetOpenState(panes: Panes, side: Side, st: OpenState): Panes {
    panes.With(side, panes.Get(side).(openState := st))
  }

  /**
   Pins the pane on `side`, then arbitrates with that pane as the one that
   changed. The pane ends up pinned; the other pane is closed exactly when it
   was expanded and the two no longer fit. Widths and styles never change.
   */
  function OpenPane(panes: Panes, side: Side, viewportWidth: int, limits: Limits): (r: Panes)
    ensures r.Get(side) == panes.Get(side).(openState := Pinned)
    ensures
      var pinned := SetOpenState(panes, side, Pinned);
      var other := panes.Get(side.Other());
      r.Get(side.Other()) ==
        if other.IsExpanded() && !EnoughSpace(pinned, viewportWidth, limits) then other.Closing() else other
    ensures WellFormed(panes, limits) ==> WellFormed(r, limits)
  {
    Arbitrate(SetOpenState(panes, side, Pinned), Some(side), viewportWidth, limits)
  }

  /**
   Closes the pane on `side`, then arbitrates with that pane as the one that
   changed; closing frees space, so the other pane is left exactly as it was.
   */
  function ClosePane(panes: Panes, side: Side, viewportWidth: int, limits: Limits): (r: Panes)
    ensures r.Get(side) == panes.Get(side).Closing()
    ensures r.Get(side.Other()) == panes.Get(side.Other())
    ensures WellFormed(panes, limits) ==> WellFormed(r, limits)
  {
    Arbitrate(SetOpenState(panes, side, Closed), Some(side), viewportWidth, limits)
  }

  /** Closing a pane a second time changes nothing. */
  lemma ClosePaneIsIdempotent(panes: Panes, side: Side, viewportWidth: int, limits: Limits)
    ensures
      var once := ClosePane(panes, side, viewportWidth, limits);
      ClosePane(once, side, viewportWidth, limits) == once
  {
  }

  /**
   Sets the width of the pane on `side`, clamped to the accepted range;
   its open state, its closed style and the other pane are untouched, and no
   arbitration takes place.
   */
  function SetPaneWidth(panes: Panes, side: Side, px: int, limits: Limits): (r: Panes)
    requires limits.Valid()
    ensures WidthInRange(r.Get(side).width, limits)
    ensures WidthInRange(px, limits) ==> r.Get(side).width == px
    ensures px < MIN_SIDE_PANE_WIDTH ==> r.Get(side).width == MIN_SIDE_PANE_WIDTH
    ensures px > limits.maxSidePaneWidth ==> r.Get(side).width == limits.maxSidePaneWidth
    ensures r.Get(side).openState == panes.Get(side).openState
    ensures r.Get(side).closedStyle == panes.Get(side).closedStyle
    ensures r.Get(side.Other()) == panes.Get(side.Other())
    ensures WellFormed(panes, limits) ==> WellFormed(r, limits)
  {
    panes.With(side, panes.Get(side).(width := ClampWidth(px, limits)))
  }

  /**
   The viewport recomputation: when the viewport can no longer hold the
   expanded panes and the central region, every expanded pane closes;
   otherwise nothing changes.
   */
  function Recompute(panes: Panes, viewportWidth: int, limits: Limits): (r: Panes)
    ensures EnoughSpace(panes, viewportWidth, limits) ==> r == panes
    ensures !EnoughSpace(panes, viewportWidth, limits) ==>
      forall side :: r.Get(side) == panes.Get(side).Closing()
    ensures WellFormed(panes, limits) ==> WellFormed(r, limits)
  {
    Arbitrate(panes, None, viewportWidth, limits)
  }

  /**
   After a recomputation either the panes fit or none is expanded, and a
   second recomputation at the same viewport width changes nothing.
   */
  lemma RecomputeIsIdempotent(panes: Panes, viewportWidth: int, limits: Limits)
    ensures
      var r := Recompute(panes, viewportWidth, limits);
      && (EnoughSpace(r, viewportWidth, limits) || (!r.left.IsExpanded() && !r.right.IsExpanded()))
      && Recompute(r, viewportWidth, limits) == r
  {
  }

  /**
   A viewport narrower than the expanded panes require leaves at least one
   pane closed after the recomputation.
   */
  lemma ShrinkClosesAPane(panes: Panes, viewportWidth: int, limits: Limits)
    requires !EnoughSpace(panes, viewportWidth, limits)
    ensures
      var r := Recompute(panes, viewportWidth, limits);
      !r.left.IsExpanded() || !r.right.IsExpanded()
  {
  }

  /**
   Opening both default panes in the wide starting viewport pins both, and
   shrinking the viewport to the central region's minimum closes both.
   */
  lemma ShrinkToCentralMinimumClosesBoth(limits: Limits)
    requires limits.Valid()
    ensures
      var wide := 2 * DEFAULT_SIDE_PANE_WIDTH + limits.centralPaneMaxWidth;
      var s0 := Init(NoConfig, limits);
      var s1 := OpenPane(OpenPane(s0, Left, wide, limits), Right, wide, limits);
      var s2 := Recompute(s1, limits.centralPaneMinWidth, limits);
      && s1.left.openState == Pinned && s1.right.openState == Pinned
      && s2.left.openState == Closed && s2.right.openState == Closed
  {
  }

  /**
   Widening the default left pane by ten pixels stores the new width, and
   the pinned pane is drawn at exactly that width.
   */
  lemma WidenedPinnedPaneIsDrawnAtNewWidth(limits: Limits)
    requires limits.Valid()
    requires limits.maxSidePaneWidth >= DEFAULT_SIDE_PANE_WIDTH + 10
    ensures
      var s := SetPaneWidth(Init(NoConfig, limits), Left, DEFAULT_SIDE_PANE_WIDTH + 10, limits);
      SidepaneWidthInPx(s.left) == DEFAULT_SIDE_PANE_WIDTH + 10
  {
  }
}

=== FILE: resize.dfy ===
/**
 Drag-to-resize. A drag on a pane's resize handle captures the pane's width
 and the pointer position when it starts; every pointer move then sets the
 width to the captured width plus the pointer's travel in the pane's outward
 direction, clamped to the accepted range. The width is written live on each
 move, with no separate commit step.
 */
module Resize {
  import opened Pane
  import opened PaneStore

  /** A drag in progress: which pane, and what was captured at its start. */
  datatype Drag = Drag(side: Side, startWidth: int, startX: int)

  /**
   The left pane's handle sits on its right edge and the right pane's on its
   left edge, so moving right widens the left pane and narrows the right one.
   */
  function OutwardTravel(side: Side, startX: int, pointerX: int): int {
    if side == Left then pointerX - startX else startX - pointerX
  }

  /**
   The width a drag asks for with the pointer at `pointerX`: the in-range
   width nearest to the captured width plus the outward travel. From an in-range start it grows exactly when the pointer travelled
   outward and there was room, and shrinks exactly when the pointer travelled
   inward and there was room.
   */
  function DragWidth(d: Drag, pointerX: int, limits: Limits): (w: int)
    requires limits.Valid()
    ensures WidthInRange(w, limits)
    ensures
      var target := d.startWidth + OutwardTravel(d.side, d.startX, pointerX);
      && (forall v :: WidthInRange(v, limits) ==> Dist(w, target) <= Dist(v, target))
      && (WidthInRange(target, limits) ==> w == target)
    ensures WidthInRange(d.startWidth, limits) ==>
      (w > d.startWidth <==> OutwardTravel(d.side, d.startX, pointerX) > 0 && d.startWidth < limits.maxSidePaneWidth)
    ensures WidthInRange(d.startWidth, limits) ==>
      (w < d.startWidth <==> OutwardTravel(d.side, d.startX, pointerX) < 0 && d.startWidth > MIN_SIDE_PANE_WIDTH)
  {
    ClampWidth(d.startWidth + OutwardTravel(d.side, d.startX, pointerX), limits)
  }

  /** Applies the pointer moves of a drag, in order, each written to the store. */
  function DragMoves(panes: Panes, d: Drag, moves: seq<int>, limits: Limits): Panes
    requires limits.Valid()
    decreases |moves|
  {
    if |moves| == 0 then panes
    else DragMoves(SetPaneWidth(panes, d.side, DragWidth(d, moves[0], limits), limits), d, moves[1..], limits)
  }

  /**
   Only where the pointer ends up matters: after any sequence of moves the
   store holds what a single move to the last position would give, and only
   the dragged pane's width has changed.
   */
  lemma {:induction false} DragEndsAtLastMove(panes: Panes, d: Drag, moves: seq<int>, limits: Limits)
    requires limits.Valid()
    requires |moves| > 0
    ensures DragMoves(panes, d, moves, limits) == SetPaneWidth(panes, d.side, DragWidth(d, moves[|moves| - 1], limits), limits)
    decreases |moves|
  {
    var next := SetPaneWidth(panes, d.side, DragWidth(d, moves[0], limits), limits);
    if |moves| > 1 {
      DragEndsAtLastMove(next, d, moves[1..], limits);
      var last := DragWidth(d, moves[|moves| - 1], limits);
      var a := SetPaneWidth(next, d.side, last, limits);
      var b := SetPaneWidth(panes, d.side, last, limits);
      assert a.Get(d.side) == b.Get(d.side);
      assert a.Get(d.side.Other()) == b.Get(d.side.Other());
      assert a.left == b.left && a.right == b.right;
    }
  }

  /**
   A whole drag gesture: press on the handle of the pane on `side` at
   `startX`, move through `moves`, release. The final width is the one the
   last pointer position asks for, however the pointer got there, and the
   widths stay in range.
   */
  function DragGesture(panes: Panes, side: Side, startX: int, moves: seq<int>, limits: Limits): (r: Panes)
    requires limits.Valid()
    ensures |moves| == 0 ==> r == panes
    ensures |moves| > 0 ==>
      r.Get(side).width == DragWidth(Drag(side, panes.Get(side).width, startX), moves[|moves| - 1], limits)
    ensures |moves| > 0 ==> WidthInRange(r.Get(side).width, limits)
    ensures WellFormed(panes, limits) ==> WellFormed(r, limits)
    ensures r.Get(side.Other()) == panes.Get(side.Other())
    ensures r.Get(side).openState == panes.Get(side).openState
    ensures r.Get(side).closedStyle == panes.Get(side).closedStyle
  {
    var d := Drag(side, panes.Get(side).width, startX);
    if |moves| == 0 then panes
    else
      DragEndsAtLastMove(panes, d, moves, limits);
      DragMoves(panes, d, moves, limits)
  }

  /**
   Dragging the left pane's handle outward from the default width by any
   positive distance leaves it wider than the default.
   */
  lemma OutwardLeftDragWidensDefaultPane(panes: Panes, startX: int, distance: int, limits: Limits)
    requires limits.Valid()
    requires panes.left.width == DEFAULT_SIDE_PANE_WIDTH
    requires distance > 0
    ensures DragGesture(panes, Left, startX, [startX + distance], limits).left.width > DEFAULT_SIDE_PANE_WIDTH
  {
  }
}

=== FILE: space_arbiter.dfy ===
/**
 Space arbitration: deciding which side panes must close when the viewport
 cannot hold both open panes next to the central region at its minimum
 width. `ComputePanesToClose` is the pure decision; `DecisionTable` is the
 same decision written out row by row, as the unit tests enumerate it, and
 `AgreesWithDecisionTable` proves the two coincide on every input.
 */
module SpaceArbiter {
  import opened Pane

  /** Which panes the arbitration asks to close. */
  datatype Closures = Closures(closeLeft: bool, closeRight: bool) {
    function Closes(side: Side): bool {
      if side == Left then closeLeft else closeRight
    }
  }

  const NothingToClose: Closures := Closures(false, false)

  /** Whether the pane on `side` is open, given both panes' openness. */
  function OpenOn(side: Side, leftPaneOpen: bool, rightPaneOpen: bool): bool {
    if side == Left then leftPaneOpen else rightPaneOpen
  }

  /**
   `paneChanged` names the pane whose open/closed transition prompted the
   check, or is `None` when the viewport changed. A pane that just acted is
   never closed by its own action; a pane that just closed frees space and
   triggers nothing; otherwise the other pane gives way, or, when nothing in
   particular changed, every open pane does.
   */
  function ComputePanesToClose(
    enoughSpace: bool,
    paneChanged: Option<Side>,
    leftPaneOpen: bool,
    rightPaneOpen: bool): (r: Closures)
    ensures enoughSpace ==> r == NothingToClose
    ensures forall side :: r.Closes(side) ==> OpenOn(side, leftPaneOpen, rightPaneOpen)
    ensures paneChanged.Some? ==> !r.Closes(paneChanged.value)
    ensures !enoughSpace && paneChanged.Some? ==>
      (r.Closes(paneChanged.value.Other()) <==> leftPaneOpen && rightPaneOpen)
    ensures !enoughSpace && paneChanged.None? ==>
      forall side :: r.Closes(side) == OpenOn(side, leftPaneOpen, rightPaneOpen)
  {
    if enoughSpace then NothingToClose
    else
      match paneChanged
      case Some(Left) => Closures(false, leftPaneOpen && rightPaneOpen)
      case Some(Right) => Closures(leftPaneOpen && rightPaneOpen, false)
      case None => Closures(leftPaneOpen, rightPaneOpen)
  }

  /** Swapping the roles of the two edges. */
  function MirrorChange(c: Option<Side>): Option<Side> {
    match c
    case Some(s) => Some(s.Other())
    case None => None
  }

  /**
   The arbitration treats the two edges alike: mirroring the inputs mirrors
   the decision.
   */
  lemma ArbitrationIsSymmetric(enoughSpace: bool, paneChanged: Option<Side>, leftPaneOpen: bool, rightPaneOpen: bool)
    ensures
      var r := ComputePanesToClose(enoughSpace, paneChanged, leftPaneOpen, rightPaneOpen);
      var m := ComputePanesToClose(enoughSpace, MirrorChange(paneChanged), rightPaneOpen, leftPaneOpen);
      m.closeLeft == r.closeRight && m.closeRight == r.closeLeft
  {
  }

  // ---------------------------------------------------------------------
  // The decision table, as an independent reference
  // ---------------------------------------------------------------------

  /** A table cell that either fixes a boolean input or matches any value. */
  datatype Cell = Any | Is(b: bool) {
    predicate Matches(x: bool) {
      Any? || b == x
    }
  }

  /** A table cell for `paneChanged`: any value, or exactly this one. */
  datatype ChangeCell = AnyChange | IsChange(c: Option<Side>) {
    predicate Matches(x: Option<Side>) {
      AnyChange? || c == x
    }
  }

  datatype Row = Row(
    enoughSpace: bool,
    paneChanged: ChangeCell,
    leftOpen: Cell,
    rightOpen: Cell,
    closeLeft: bool,
    closeRight: bool)
  {
    predicate Matches(enough: bool, changed: Option<Side>, l: bool, r: bool) {
      enoughSpace == enough && paneChanged.Matches(changed) && leftOpen.Matches(l) && rightOpen.Matches(r)
    }
  }

  /** One row per case the unit tests distinguish. */
  const DecisionTable: seq<Row> := [
    Row(true,  AnyChange,            Any,      Any,      false, false),
    Row(false, IsChange(Some(Left)),  Is(true), Is(true), false, true),
    Row(false, IsChange(Some(Left)),  Is(true), Is(false), false, false),
    Row(false, IsChange(Some(Left)),  Is(false), Any,     false, false),
    Row(false, IsChange(Some(Right)), Is(true), Is(true), true,  false),
    Row(false, IsChange(Some(Right)), Is(false), Is(true), false, false),
    Row(false, IsChange(Some(Right)), Any,      Is(false), false, false),
    Row(false, IsChange(None),        Is(true), Is(true), true,  true),
    Row(false, IsChange(None),        Is(true), Is(false), true,  false),
    Row(false, IsChange(None),        Is(false), Is(true), false, true),
    Row(false, IsChange(None),        Is(false), Is(false), false, false)
  ]

  /**
   Every input is covered by some row, and on every row that covers it the
   arbitration gives exactly the row's outcome (so the rows never conflict).
   */
  lemma AgreesWithDecisionTable(enoughSpace: bool, paneChanged: Option<Side>, leftPaneOpen: bool, rightPaneOpen: bool)
    ensures exists i :: 0 <= i < |DecisionTable| && DecisionTable[i].Matches(enoughSpace, paneChanged, leftPaneOpen, rightPaneOpen)
    ensures forall i :: 0 <= i < |DecisionTable| && DecisionTable[i].Matches(enoughSpace, paneChanged, leftPaneOpen, rightPaneOpen) ==>
      ComputePanesToClose(enoughSpace, paneChanged, leftPaneOpen, rightPaneOpen)
        == Closures(DecisionTable[i].closeLeft, DecisionTable[i].closeRight)
  {
    var r := ComputePanesToClose(enoughSpace, paneChanged, leftPaneOpen, rightPaneOpen);
    var i := CoveringRow(enoughSpace, paneChanged, leftPaneOpen, rightPaneOpen);
    forall j | 0 <= j < |DecisionTable| && DecisionTable[j].Matches(enoughSpace, paneChanged, leftPaneOpen, rightPaneOpen)
      ensures r == Closures(DecisionTable[j].closeLeft, DecisionTable[j].closeRight)
    {
      RowOutcome(j, enoughSpace, paneChanged, leftPaneOpen, rightPaneOpen);
    }
  }

  /** The index of a row covering the given input. */
  function CoveringRow(enoughSpace: bool, paneChanged: Option<Side>, leftPaneOpen: bool, rightPaneOpen: bool): (i: nat)
    ensures i < |DecisionTable| && DecisionTable[i].Matches(enoughSpace, paneChanged, leftPaneOpen, rightPaneOpen)
  {
    if enoughSpace then 0
    else
      match paneChanged
      case Some(Left) => if !leftPaneOpen then 3 else if rightPaneOpen then 1 else 2
      case Some(Right) => if !rightPaneOpen then 6 else if leftPaneOpen then 4 else 5
      case None =>
        if leftPaneOpen then (if rightPaneOpen then 7 else 8)
        else (if rightPaneOpen then 9 else 10)
  }

  /** Row `j`, whenever it covers an input, prescribes the arbitration's outcome. */
  lemma RowOutcome(j: nat, enoughSpace: bool, paneChanged: Option<Side>, leftPaneOpen: bool, rightPaneOpen: bool)
    requires j < |DecisionTable| && DecisionTable[j].Matches(enoughSpace, paneChanged, leftPaneOpen, rightPaneOpen)
    ensures ComputePanesToClose(enoughSpace, paneChanged, leftPaneOpen, rightPaneOpen)
      == Closures(DecisionTable[j].closeLeft, DecisionTable[j].closeRight)
  {
  }
}
